=== FILE: README.md ===
# xcodeproj core in Dafny

A model of the pure logic inside the `xcodeproj` package of bitrise's xcode-project library
(`xcodeproj/xcodeproj.go`):

- **Build-setting reference expansion.** `expand` rewrites one `$(KEY[:modifiers])` reference
  with the value of the build setting KEY; `resolve` repeats it until no `$` is left, and stops
  with "bundle id reference cycle found" when an intermediate result comes round again
  (`expansion.dfy`, `resolve.dfy`, with worked cases in `resolve_examples.dfy`).
- **The reference pattern.** `(.*)\$\((.*)\)(.*)` under Go's `FindStringSubmatch`: a
  declarative definition of a match and of the leftmost-first match Go's backtracking
  preference reports, and a line-by-line search proved to find exactly that match
  (`pattern.dfy`).
- **Bundle-identifier precedence.** `TargetBundleID` prefers a non-empty
  `PRODUCT_BUNDLE_IDENTIFIER` and otherwise falls back to the Info.plist's `CFBundleIdentifier`;
  either is resolved against the build settings (`bundle_id.dfy`).
- **Root-object discovery.** The loop in `open` that looks through the `objects` dictionary for
  the entry whose `isa` is `PBXProject` (`root_scan.dfy`).
- **Forcing manual code signing.** `ForceCodeSign` with `foreceCodeSignOnTargetAttributes`,
  which rewrites the target's TargetAttributes entry, and `foreceCodeSignOnBuildSettings`,
  which does nothing (`code_sign.dfy`).
- **Path helpers.** `IsXcodeProj` and the project `Name`, over Go's `filepath.Ext`,
  `filepath.Base` and `strings.TrimSuffix` with `/` as the separator (`paths.dfy`).

The decoded property-list values the code navigates through its `serialized` package are
modelled as `Value = Str | Dict | Other` with lookups that fail with `KeyNotFound` or
`TypeMismatch` (`serialized.dfy`). Every error the modelled functions report is a constructor of
`Common.Error`. Go's `resolve` loop need not terminate: a setting `A = x$(A)` grows on every
pass. So the model runs at most `fuel` passes and answers `OutOfFuel` when they are used up.

Behaviour of the code that the model keeps:

- References are written `$(KEY)`, with parentheses. A brace reference `${KEY}` is a pattern
  mismatch (`ResolveExamples.BraceReferenceIsMalformed`).
- A value may hold several references. Each pass replaces only the last `$(` that has a `)`
  after it on the matched line, and the key runs to the last `)` of that line.
- Go's `.` does not match a line feed, so the match lies inside one line. `expand` then returns
  only that line's prefix, value and suffix, and drops the text on the other lines.
- In the bundle-identifier fallback, an absent `CFBundleIdentifier` is a lookup error that
  propagates. Only an empty one gives the "no PRODUCT_BUNDLE_IDENTIFIER build settings nor
  CFBundleIdentifier information property found" error.
- `foreceCodeSignOnTargetAttributes` looks the entry up before writing to it, so a failed
  `ForceCodeSign` changes nothing.

## Model

| member | source | states |
|---|---|---|
| `Serialized.GetString` | xcodeproj/xcodeproj.go:106-109 | a lookup succeeds exactly when the key holds a string, and yields that string; it fails with KeyNotFound exactly when the key is absent, and with TypeMismatch exactly when the key holds something else |
| `Serialized.GetObject` | xcodeproj/xcodeproj.go:314-317 | the same three-way outcome for dictionary-valued keys |
| `Pattern.FindMatch` | xcodeproj/xcodeproj.go:160-165 | there is no match exactly when the pattern matches nowhere; otherwise the reported match is the leftmost-first one: the earliest start, then the latest `$(`, then the latest `)`, then the longest tail, all inside one line |
| `Expansion.FoundIsLeftmostFirst` | xcodeproj/xcodeproj.go:160-162 | conversely, whenever a leftmost-first match exists, it is exactly the match FindMatch reports |
| `Pattern.FindFromCorrect` | xcodeproj/xcodeproj.go:160-162 | searching line by line from a position finds a match preferred over every match that starts there, or proves that no match starts there |
| `Pattern.LeftmostFirstUnique` | xcodeproj/xcodeproj.go:162 | the leftmost-first match is unique, so the groups `FindStringSubmatch` returns are well defined |
| `Expansion.KeyName` | xcodeproj/xcodeproj.go:171-172 | the looked-up key is a prefix of the reference without `:`, cut at the first `:` when there is one |
| `Expansion.KeyNameDropsModifiers` | xcodeproj/xcodeproj.go:171-172 | `$(name:modifiers)` looks up `name` alone, and a reference without `:` is looked up whole |
| `Expansion.Expand` | xcodeproj/xcodeproj.go:155-158 | a value without `$` is returned unchanged; the only failures are a pattern mismatch, a missing setting, or a mistyped setting |
| `Expansion.Substitute` | xcodeproj/xcodeproj.go:174-182 | the substitution succeeds exactly when the key's name holds a string, and yields prefix, that string and suffix; it fails with BuildSettingNotFound exactly when the name is absent, and with TypeMismatch when the name holds something else |
| `Expansion.ExpandMeaning` | xcodeproj/xcodeproj.go:155-183 | the full meaning of one pass: no `$` gives the value back; a `$` without a match gives PatternMismatch; otherwise the leftmost-first match is replaced by prefix, value of the key's name and suffix, or the pass fails with BuildSettingNotFound for an absent key or with the lookup's own error |
| `Expansion.ExpandPlainReference` | xcodeproj/xcodeproj.go:160-182 | for a one-line `p$(key)q` where key holds no `$` and q holds no `)`, one pass yields p, the setting's value and q, or reports the key's absence or mistyping |
| `Resolution.ResolveLoop` | xcodeproj/xcodeproj.go:135-151 | a successful loop result never holds a `$` |
| `Resolution.Resolve` | xcodeproj/xcodeproj.go:132-153 | a bundle id without `$` resolves to itself; every successful result is free of `$` |
| `Resolution.ResolveIsFirstStop` | xcodeproj/xcodeproj.go:135-151 | a finished result other than a cycle report is the first iterate of `expand` that failed or holds no `$`, reached within the passes run; all earlier iterates succeeded and held a `$` |
| `Resolution.ResolveReachesFirstStop` | xcodeproj/xcodeproj.go:135-151 | conversely, when the first stopping iterate comes within the passes allowed, resolve returns exactly that iterate |
| `Resolution.IterateAdd` | xcodeproj/xcodeproj.go:137 | m + n passes are m passes followed by n, stopping at the first failure |
| `Resolution.OrbitRepeats` | xcodeproj/xcodeproj.go:137 | once two iterates holding `$` coincide, every later iterate succeeds and holds a `$` |
| `Resolution.LoopCycleRepeats` | xcodeproj/xcodeproj.go:146-149 | a cycle report comes from a later iterate equal to an earlier one, within the passes run, all iterates up to it holding a `$` |
| `Resolution.RepeatIsReported` | xcodeproj/xcodeproj.go:146-150 | a repetition the loop reaches, with the earlier copy recorded in the seen set, is reported as a cycle |
| `Resolution.CycleIffRepeat` | xcodeproj/xcodeproj.go:145-150 | resolve reports a reference cycle if and only if, within its passes, an intermediate result still holding `$` equals an earlier one; the input itself never counts |
| `Resolution.CycleMeansEndlessExpansion` | xcodeproj/xcodeproj.go:146-148 | a cycle report is justified: unbounded expansion would never finish, since every iterate succeeds and still holds a `$` |
| `Resolution.ResolveFuelMonotone` | xcodeproj/xcodeproj.go:135-151 | more passes never change a finished outcome, so the pass bound only cuts off runs the Go loop would continue |
| `Resolution.ResolveFailures` | xcodeproj/xcodeproj.go:136-140 | resolve fails only with a reference cycle or with one of the failures of `expand`, passed on unchanged |
| `Resolution.ExpandFailures` | xcodeproj/xcodeproj.go:163-180 | any number of passes fails only with the failures of a single pass |
| `ResolveExamples.SelfReferenceIsCycle` | xcodeproj/xcodeproj.go:146-149 | `{A: "$(A)"}` on `"$(A)"` is a reference cycle after two passes |
| `ResolveExamples.MutualReferenceIsCycle` | xcodeproj/xcodeproj.go:146-149 | `{A: "$(B)", B: "$(A)"}` on `"$(A)"` is a reference cycle |
| `ResolveExamples.NestedReferenceResolves` | xcodeproj/xcodeproj.go:135-144 | `{T: app, B: prefix + "$(T)"}` on `"$(B)"` yields prefix + app, as in `com.example.App` |
| `ResolveExamples.ModifierIsIgnored` | xcodeproj/xcodeproj.go:171-174 | `$(name:modifiers)` resolves to the value of `name`; the modifiers are not applied |
| `ResolveExamples.MissingSettingIsReported` | xcodeproj/xcodeproj.go:174-178 | a reference to an absent setting fails with that setting's name |
| `ResolveExamples.BraceReferenceIsMalformed` | xcodeproj/xcodeproj.go:160-165 | `${name}` does not match the pattern and fails with the pattern-mismatch error |
| `ResolveExamples.SelfGrowingNeverFinishes` | xcodeproj/xcodeproj.go:135-151 | `{A: "x$(A)"}` on `"$(A)"` never finishes, whatever the number of passes: every pass is new and still holds a `$` |
| `ResolveExamples.GrowingLoop` | xcodeproj/xcodeproj.go:142-150 | when every pass puts one more `x` in front of `$(A)`, each result is longer than everything seen, so the loop neither stops nor reports a cycle before its passes run out |
| `BundleId.TargetBundleID` | xcodeproj/xcodeproj.go:100-130 | a bundle identifier returned without error is free of `$` |
| `BundleId.FromInfoPlist` | xcodeproj/xcodeproj.go:115-129 | the fallback's identifier, when returned without error, is free of `$` |
| `BundleId.SettingWins` | xcodeproj/xcodeproj.go:106-113 | a non-empty PRODUCT_BUNDLE_IDENTIFIER is resolved against the build settings, and the Info.plist, read or not, has no effect |
| `BundleId.MistypedSettingAborts` | xcodeproj/xcodeproj.go:106-109 | a PRODUCT_BUNDLE_IDENTIFIER that is not a string aborts with TypeMismatch instead of falling back |
| `BundleId.FallbackReadsOnlyCFBundleIdentifier` | xcodeproj/xcodeproj.go:115-123 | without the setting, the outcome depends on the Info.plist only through its CFBundleIdentifier |
| `BundleId.FallbackResolvesAgainstSettings` | xcodeproj/xcodeproj.go:120-129 | a non-empty CFBundleIdentifier is resolved against the build settings, not against the Info.plist |
| `BundleId.NeitherIsAnError` | xcodeproj/xcodeproj.go:125-127 | an empty CFBundleIdentifier, without a non-empty setting, gives the "no PRODUCT_BUNDLE_IDENTIFIER … nor CFBundleIdentifier" error |
| `BundleId.FallbackFailuresPropagate` | xcodeproj/xcodeproj.go:115-123 | in the fallback, a missing INFOPLIST_FILE, a failed Info.plist read, and an absent or mistyped CFBundleIdentifier each propagate unchanged |
| `BundleId.UnreadableInfoPlistAborts` | xcodeproj/xcodeproj.go:115-118 | in the fallback, a failure to read or decode the Info.plist is returned as it is |
| `RootScan.ScanFrom` | xcodeproj/xcodeproj.go:257-275 | the scan returns the first root entry in enumeration order, all entries before it being readable non-roots; or "" when no entry is a root; or the error of the first unreadable entry met before any root: KeyNotFound or TypeMismatch of its id when it is absent or not a dictionary, else KeyNotFound or TypeMismatch of `isa` |
| `RootScan.FindProjectID` | xcodeproj/xcodeproj.go:252-275 | a missing or non-dictionary `objects` field fails with KeyNotFound or TypeMismatch before any entry is scanned |
| `RootScan.UniqueRootFound` | xcodeproj/xcodeproj.go:257-275 | when every entry is readable and exactly one is a PBXProject, the scan finds it in any enumeration order |
| `RootScan.NoRootGivesEmptyID` | xcodeproj/xcodeproj.go:257-275 | when no readable entry is a PBXProject, the id is "" and there is no error |
| `RootScan.FoundIDIsRoot` | xcodeproj/xcodeproj.go:269-272 | a non-empty id returned without error names an entry whose `isa` is PBXProject |
| `RootScan.ReadableTableNeverFails` | xcodeproj/xcodeproj.go:259-267 | when every entry is a dictionary with a string `isa`, the scan never fails, in any enumeration order |
| `CodeSign.ManualSigning` | xcodeproj/xcodeproj.go:319-321 | the entry gets ProvisioningStyle "Manual", the given DevelopmentTeam and an empty DevelopmentTeamName; every other field keeps its value |
| `CodeSign.ForceCodeSignOnTargetAttributes` | xcodeproj/xcodeproj.go:313-323 | it succeeds exactly when the target's entry is a dictionary, and otherwise fails with TargetAttributeUnavailable wrapping KeyNotFound or TypeMismatch of the id; on success only that entry changes, to its manual-signing form, and no target is added or removed |
| `CodeSign.ForceCodeSign` | xcodeproj/xcodeproj.go:288-309 | unreadable TargetAttributes and an unknown target name are reported first; it succeeds exactly when the target's entry is a dictionary, and an absent or non-dictionary entry gives TargetAttributesNotChanged wrapping TargetAttributeUnavailable with the lookup's KeyNotFound or TypeMismatch of the id; on success that entry has the three fields set and keeps its other fields, and every other target is unchanged |
| `CodeSign.ForceCodeSignIdempotent` | xcodeproj/xcodeproj.go:288-323 | forcing manual signing a second time changes nothing |
| `CodeSign.IdentityAndProfileIgnored` | xcodeproj/xcodeproj.go:300-307 | the signing identity and the provisioning profile have no effect on the outcome |
| `CodeSign.ForceCodeSignCommutes` | xcodeproj/xcodeproj.go:313-323 | overrides of two different targets give the same dictionary in either order |
| `CodeSign.LastTeamWins` | xcodeproj/xcodeproj.go:319-321 | overriding a target twice is the same as overriding it once with the second team |
| `Paths.TrimSuffix` | xcodeproj/xcodeproj.go:231 | a string ending in the suffix loses exactly that suffix; any other string is returned as it is |
| `Paths.Ext` | xcodeproj/xcodeproj.go:280 | the extension is the suffix from the last `.` of the final path element, holding no further `.` and no `/`; it is "" exactly when the final element has no `.` |
| `Paths.Base` | xcodeproj/xcodeproj.go:231 | the base name is "." for the empty path; it is "/" exactly when the path consists of separators; otherwise it is a non-empty element without `/` that occurs in the path at the start or right after a separator and is followed only by separators, so `a/b/` gives `b`; for a path not ending in `/` it is the text after the last `/` |
| `Paths.IsXcodeProj` | xcodeproj/xcodeproj.go:279-281 | a path is an Xcode project if and only if it ends in ".xcodeproj" |
| `Paths.ExtIsXcodeProjIffSuffix` | xcodeproj/xcodeproj.go:280 | the extension `filepath.Ext` finds is ".xcodeproj" if and only if the path ends in ".xcodeproj", whatever precedes it |
| `Paths.Name` | xcodeproj/xcodeproj.go:231 | the empty path is named "."; for a non-empty path not ending in `/`, the name followed by the extension is the base name; for a path ending in `/`, whose extension is empty, the name is the base name |
| `Paths.ExtEndsBase` | xcodeproj/xcodeproj.go:231 | for a path not ending in `/`, the extension is a suffix of the base name, so trimming it removes exactly the extension |
| `Paths.ProjectNameIsStem` | xcodeproj/xcodeproj_test.go:24-29 | a project at `dir/stem.xcodeproj` is an Xcode project named stem, as `…/XcodeProj.xcodeproj` is named XcodeProj |
| `Paths.SampleProjectPaths` | xcodeproj/xcodeproj_test.go:32-35 | "./BitriseSample.xcodeproj" is an Xcode project and "./BitriseSample.xcworkspace" is not |

## Left out

- File I/O and the property-list codec are not modelled: reading `project.pbxproj`, the
  entitlements and the Info.plist, `plist.Unmarshal` and `plist.Marshal`, and `Save`. The
  codec is foreign, so the load-then-save round trip cannot be stated. `TargetBundleID` takes
  the outcome of reading and decoding the Info.plist as an input.
- `TargetBuildSettings` runs `xcodebuild` out of process. The build settings are an input
  map, so its failure path at the start of `TargetBundleID` is not modelled. The Info.plist
  path is looked up again through a second `TargetBuildSettings` call; the model assumes that
  call returns the same map.
- `buildSettingsFilePath`, which makes the INFOPLIST_FILE path absolute, is not modelled. Only
  the INFOPLIST_FILE lookup and its error are kept.
- Three error messages have no constructor. "failed to generate json from Pbxproj" wraps
  `plist.Unmarshal` and "failed to marshal .pbxproj" wraps `plist.Marshal`; both codecs are
  foreign. "failed to resolve bundle id" follows `resolve`'s endless loop and cannot be reached.
- The `serialized` package is not part of this model beyond the three-way lookup outcome.
- `parseProj`, `Proj.TargetByName` and `TargetAttributes()` live in files that are not part of
  this model. `ForceCodeSign` takes the TargetAttributes outcome and the target-id lookup as
  inputs.
- `Scheme` and `Schemes` are not modelled. They read scheme files and compare names after
  Unicode NFC normalization, both foreign.
- `Open` is modelled only through its `Name` expression. It passes `pth` rather than `absPth`
  to `open`, and its `err` from `open` is overwritten by `parseProj`'s. The absolute-path step
  (`pathutil.AbsPath`) is foreign, so `Name` is stated for the path as given.
- `CodeSign.ForceCodeSign` returns the new TargetAttributes dictionary. The Go code mutates the
  shared map in place. `ForceCodeSignOnBuildSettings` has no contract because it does nothing
  and never fails.
- `Resolution.Resolve`: runs at most `fuel` passes and answers `OutOfFuel` after them, because
  the Go loop need not terminate; `Resolution.ResolveFuelMonotone` shows that the bound never
  alters a finished outcome.
- `Pattern.FindMatch`: characters are Dafny `char`s rather than UTF-8 bytes decoded to runes,
  so the treatment of invalid UTF-8 by Go's regexp is not modelled.
- `Paths.Base`: Unix only — `/` is the sole separator and there are no volume names.

=== FILE: bundle_id.dfy ===
/** `TargetBundleID`: the effective bundle identifier of a target, with the build setting
    PRODUCT_BUNDLE_IDENTIFIER taking precedence over the Info.plist's CFBundleIdentifier. */
module BundleId {
  import opened Common
  import opened Serialized
  import opened Resolution

  const ProductBundleIdentifier := "PRODUCT_BUNDLE_IDENTIFIER"
  const InfoPlistFile := "INFOPLIST_FILE"
  const CFBundleIdentifier := "CFBundleIdentifier"

  /** The bundle identifier for one (target, configuration).
      `settings` is what the build-settings provider returned for it; `infoPlist` is the outcome
      of reading and decoding the file INFOPLIST_FILE names, consulted only in the fallback. */
  function TargetBundleID(settings: Object, infoPlist: Result<Object>, fuel: nat): (o: Outcome)
    ensures o.Finished? && o.result.Ok? ==> '$' !in o.result.value
  {
    var primary := GetString(settings, ProductBundleIdentifier);
    if primary.Err? && !primary.error.KeyNotFound? then Finished(Err(primary.error))
    else if primary.Ok? && primary.value != "" then Resolve(primary.value, settings, fuel)
    else FromInfoPlist(settings, infoPlist, fuel)
  }

  /** The fallback: CFBundleIdentifier of the Info.plist, resolved against the build settings. */
  function FromInfoPlist(settings: Object, infoPlist: Result<Object>, fuel: nat): (o: Outcome)
    ensures o.Finished? && o.result.Ok? ==> '$' !in o.result.value
  {
    var path := GetString(settings, InfoPlistFile);
    if path.Err? then Finished(Err(path.error))
    else if infoPlist.Err? then Finished(Err(infoPlist.error))
    else
      var id := GetString(infoPlist.value, CFBundleIdentifier);
      if id.Err? then Finished(Err(id.error))
      else if id.value == "" then Finished(Err(NoBundleIdentifier))
      else Resolve(id.value, settings, fuel)
  }

  /** A non-empty PRODUCT_BUNDLE_IDENTIFIER wins: it is resolved against the build settings and
      the Info.plist is never consulted, whatever it holds or however reading it fails. */
  lemma SettingWins(settings: Object, plistA: Result<Object>, plistB: Result<Object>, fuel: nat)
    requires ProductBundleIdentifier in settings
    requires settings[ProductBundleIdentifier].Str? && settings[ProductBundleIdentifier].s != ""
    ensures TargetBundleID(settings, plistA, fuel) == Resolve(settings[ProductBundleIdentifier].s, settings, fuel)
    ensures TargetBundleID(settings, plistA, fuel) == TargetBundleID(settings, plistB, fuel)
  {
  }

  /** PRODUCT_BUNDLE_IDENTIFIER holding something other than a string aborts; only its absence
      is a reason to fall back. */
  lemma MistypedSettingAborts(settings: Object, infoPlist: Result<Object>, fuel: nat)
    requires ProductBundleIdentifier in settings && !settings[ProductBundleIdentifier].Str?
    ensures TargetBundleID(settings, infoPlist, fuel) == Finished(Err(TypeMismatch(ProductBundleIdentifier)))
  {
  }

  /** An absent or empty PRODUCT_BUNDLE_IDENTIFIER falls back to the Info.plist, and the
      outcome then depends on the plist only through its CFBundleIdentifier lookup. */
  lemma FallbackReadsOnlyCFBundleIdentifier(settings: Object, plistA: Object, plistB: Object, fuel: nat)
    requires ProductBundleIdentifier !in settings || settings[ProductBundleIdentifier] == Str("")
    requires GetString(plistA, CFBundleIdentifier) == GetString(plistB, CFBundleIdentifier)
    ensures TargetBundleID(settings, Ok(plistA), fuel) == TargetBundleID(settings, Ok(plistB), fuel)
  {
  }

  /** In the fallback, a non-empty CFBundleIdentifier is resolved against the build settings,
      not against the Info.plist it came from. */
  lemma FallbackResolvesAgainstSettings(settings: Object, infoPlist: Object, fuel: nat)
    requires ProductBundleIdentifier !in settings || settings[ProductBundleIdentifier] == Str("")
    requires InfoPlistFile in settings && settings[InfoPlistFile].Str?
    requires CFBundleIdentifier in infoPlist && infoPlist[CFBundleIdentifier].Str?
    requires infoPlist[CFBundleIdentifier].s != ""
    ensures TargetBundleID(settings, Ok(infoPlist), fuel) == Resolve(infoPlist[CFBundleIdentifier].s, settings, fuel)
  {
  }

  /** Neither a non-empty setting nor a non-empty CFBundleIdentifier: the "no
      PRODUCT_BUNDLE_IDENTIFIER ... nor CFBundleIdentifier" error. */
  lemma NeitherIsAnError(settings: Object, infoPlist: Object, fuel: nat)
    requires ProductBundleIdentifier !in settings || settings[ProductBundleIdentifier] == Str("")
    requires InfoPlistFile in settings && settings[InfoPlistFile].Str?
    requires CFBundleIdentifier in infoPlist && infoPlist[CFBundleIdentifier] == Str("")
    ensures TargetBundleID(settings, Ok(infoPlist), fuel) == Finished(Err(NoBundleIdentifier))
  {
  }

  /** Failures on the way to the Info.plist's identifier propagate as they are: a missing
      INFOPLIST_FILE setting, the file failing to read or decode, and a CFBundleIdentifier
      that is absent or not a string. */
  lemma FallbackFailuresPropagate(settings: Object, infoPlist: Result<Object>, fuel: nat)
    requires ProductBundleIdentifier !in settings || settings[ProductBundleIdentifier] == Str("")
    ensures InfoPlistFile !in settings ==>
      TargetBundleID(settings, infoPlist, fuel) == Finished(Err(KeyNotFound(InfoPlistFile)))
    ensures InfoPlistFile in settings && settings[InfoPlistFile].Str? && infoPlist.Err? ==>
      TargetBundleID(settings, infoPlist, fuel) == Finished(Err(infoPlist.error))
    ensures InfoPlistFile in settings && settings[InfoPlistFile].Str? && infoPlist.Ok?
            && CFBundleIdentifier !in infoPlist.value ==>
      TargetBundleID(settings, infoPlist, fuel) == Finished(Err(KeyNotFound(CFBundleIdentifier)))
    ensures InfoPlistFile in settings && settings[InfoPlistFile].Str? && infoPlist.Ok?
            && CFBundleIdentifier in infoPlist.value && !infoPlist.value[CFBundleIdentifier].Str? ==>
      TargetBundleID(settings, infoPlist, fuel) == Finished(Err(TypeMismatch(CFBundleIdentifier)))
  {
  }

  /** In the fallback, an Info.plist that cannot be read or decoded aborts with the reader's own
      failure; the message is not rewritten. */
  lemma UnreadableInfoPlistAborts(settings: Object, message: string, fuel: nat)
    requires ProductBundleIdentifier !in settings || settings[ProductBundleIdentifier] == Str("")
    requires InfoPlistFile in settings && settings[InfoPlistFile].Str?
    ensures TargetBundleID(settings, Err(ReadFailure(message)), fuel) == Finished(Err(ReadFailure(message)))
  {
  }
}

=== FILE: code_sign.dfy ===
/** `ForceCodeSign`: switch one target to manual code signing by rewriting its entry in the
    project's TargetAttributes dictionary (target id -> attribute dictionary). */
module CodeSign {
  import opened Common
  import opened Serialized

  const ProvisioningStyle := "ProvisioningStyle"
  const DevelopmentTeam := "DevelopmentTeam"
  const DevelopmentTeamName := "DevelopmentTeamName"

  /** The attribute entry after the override: manual provisioning, the given team, no team name. */
  function ManualSigning(entry: Object, team: string): (r: Object)
    ensures r.Keys == entry.Keys + {ProvisioningStyle, DevelopmentTeam, DevelopmentTeamName}
    ensures r[ProvisioningStyle] == Str("Manual")
    ensures r[DevelopmentTeam] == Str(team)
    ensures r[DevelopmentTeamName] == Str("")
    ensures forall k :: k in entry && k !in {ProvisioningStyle, DevelopmentTeam, DevelopmentTeamName} ==> r[k] == entry[k]
  {
    entry[ProvisioningStyle := Str("Manual")][DevelopmentTeam := Str(team)][DevelopmentTeamName := Str("")]
  }

  /** `foreceCodeSignOnTargetAttributes`: rewrite the entry of targetID, which must be a dictionary. */
  function ForceCodeSignOnTargetAttributes(attributes: Object, targetID: string, team: string): (r: Result<Object>)
    ensures r.Ok? <==> targetID in attributes && attributes[targetID].Dict?
    ensures r.Err? ==> r.error.TargetAttributeUnavailable? && r.error.targetID == targetID
    ensures r.Err? ==>
      r.error == TargetAttributeUnavailable(targetID, if targetID !in attributes then KeyNotFound(targetID) else TypeMismatch(targetID))
    ensures r.Ok? ==> r.value.Keys == attributes.Keys
    ensures r.Ok? ==> r.value[targetID] == Dict(ManualSigning(attributes[targetID].fields, team))
    ensures r.Ok? ==> forall id :: id in attributes && id != targetID ==> r.value[id] == attributes[id]
  {
    match GetObject(attributes, targetID)
    case Err(e) => Err(TargetAttributeUnavailable(targetID, e))
    case Ok(entry) => Ok(attributes[targetID := Dict(ManualSigning(entry, team))])
  }

  /** `foreceCodeSignOnBuildSettings`: declared, but it changes nothing and never fails. */
  function ForceCodeSignOnBuildSettings(targetID: string, team: string, provisioningProfileUUID: string): Option<Error> {
    None
  }

  /** `ForceCodeSign(targetName, developmentTeam, codesignIdentity, provisioningProfileUUID)`.
      `attributes` is the outcome of reading the project's TargetAttributes and `targetID` the
      outcome of looking targetName up among the project's targets; the result is the new
      TargetAttributes dictionary. */
  function ForceCodeSign(attributes: Result<Object>, targetID: Option<string>, targetName: string,
                         team: string, codesignIdentity: string, provisioningProfileUUID: string): (r: Result<Object>)
    ensures attributes.Err? ==> r == Err(TargetAttributesUnavailable(attributes.error))
    ensures attributes.Ok? && targetID.None? ==> r == Err(TargetNotFound(targetName))
    ensures attributes.Ok? && targetID.Some? && !(targetID.value in attributes.value && attributes.value[targetID.value].Dict?) ==>
      var id := targetID.value;
      var cause := if id !in attributes.value then KeyNotFound(id) else TypeMismatch(id);
      r == Err(TargetAttributesNotChanged(TargetAttributeUnavailable(id, cause)))
    ensures r.Ok? <==> attributes.Ok? && targetID.Some? && targetID.value in attributes.value
                       && attributes.value[targetID.value].Dict?
    ensures r.Ok? ==>
      var id := targetID.value;
      var entry := attributes.value[id].fields;
      && r.value.Keys == attributes.value.Keys
      && r.value[id].Dict?
      && r.value[id].fields.Keys == entry.Keys + {ProvisioningStyle, DevelopmentTeam, DevelopmentTeamName}
      && r.value[id].fields[ProvisioningStyle] == Str("Manual")
      && r.value[id].fields[DevelopmentTeam] == Str(team)
      && r.value[id].fields[DevelopmentTeamName] == Str("")
      && (forall k :: k in entry && k !in {ProvisioningStyle, DevelopmentTeam, DevelopmentTeamName} ==>
            r.value[id].fields[k] == entry[k])
      && (forall other :: other in attributes.value && other != id ==> r.value[other] == attributes.value[other])
  {
    match attributes
    case Err(e) => Err(TargetAttributesUnavailable(e))
    case Ok(attrs) =>
      match targetID
      case None => Err(TargetNotFound(targetName))
      case Some(id) =>
        match ForceCodeSignOnTargetAttributes(attrs, id, team)
        case Err(e) => Err(TargetAttributesNotChanged(e))
        case Ok(updated) =>
          match ForceCodeSignOnBuildSettings(id, team, provisioningProfileUUID)
          case Some(e) => Err(BuildSettingsNotChanged(e))
          case None => Ok(updated)
  }

  /** Forcing manual signing twice is the same as forcing it once. */
  lemma ForceCodeSignIdempotent(attributes: Object, targetID: Option<string>, targetName: string,
                                team: string, codesignIdentity: string, provisioningProfileUUID: string)
    ensures var once := ForceCodeSign(Ok(attributes), targetID, targetName, team, codesignIdentity, provisioningProfileUUID);
      once.Ok? ==>
        ForceCodeSign(once, targetID, targetName, team, codesignIdentity, provisioningProfileUUID) == once
  {
    var once := ForceCodeSign(Ok(attributes), targetID, targetName, team, codesignIdentity, provisioningProfileUUID);
    if once.Ok? {
      var id := targetID.value;
      var entry := attributes[id].fields;
      assert ManualSigning(ManualSigning(entry, team), team) == ManualSigning(entry, team);
      assert once.value[id := Dict(ManualSigning(ManualSigning(entry, team), team))] == once.value;
    }
  }

  /** The signing identity and the provisioning profile have no effect. */
  lemma IdentityAndProfileIgnored(attributes: Result<Object>, targetID: Option<string>, targetName: string, team: string,
                                  identityA: string, profileA: string, identityB: string, profileB: string)
    ensures ForceCodeSign(attributes, targetID, targetName, team, identityA, profileA)
         == ForceCodeSign(attributes, targetID, targetName, team, identityB, profileB)
  {
  }

  /** Overrides of two different targets do not interfere: either order gives the same dictionary. */
  lemma ForceCodeSignCommutes(attributes: Object, idA: string, idB: string, teamA: string, teamB: string)
    requires idA != idB
    ensures var a := ForceCodeSignOnTargetAttributes(attributes, idA, teamA);
            var b := ForceCodeSignOnTargetAttributes(attributes, idB, teamB);
      a.Ok? && b.Ok? ==>
        ForceCodeSignOnTargetAttributes(a.value, idB, teamB) == ForceCodeSignOnTargetAttributes(b.value, idA, teamA)
  {
    var a := ForceCodeSignOnTargetAttributes(attributes, idA, teamA);
    var b := ForceCodeSignOnTargetAttributes(attributes, idB, teamB);
    if a.Ok? && b.Ok? {
      var ab := ForceCodeSignOnTargetAttributes(a.value, idB, teamB);
      var ba := ForceCodeSignOnTargetAttributes(b.value, idA, teamA);
      assert ab.Ok? && ba.Ok?;
      assert ab.value == ba.value;
    }
  }

  /** A second override of the same target replaces the first team: the last one wins. */
  lemma LastTeamWins(attributes: Object, id: string, first: string, second: string)
    ensures var once := ForceCodeSignOnTargetAttributes(attributes, id, first);
      once.Ok? ==>
        ForceCodeSignOnTargetAttributes(once.value, id, second) == ForceCodeSignOnTargetAttributes(attributes, id, second)
  {
    var once := ForceCodeSignOnTargetAttributes(attributes, id, first);
    if once.Ok? {
      var entry := attributes[id].fields;
      var manual := ManualSigning(ManualSigning(entry, first), second);
      assert manual == ManualSigning(entry, second);
      assert once.value[id := Dict(manual)] == attributes[id := Dict(manual)];
    }
  }
}

=== FILE: common.dfy ===
/** Option, Result and the error kinds reported by the project layer.
    Go reports every failure as an `error`; each kind below names the message it stands for. */
module Common {

  datatype Option<+T> = None | Some(value: T)

  datatype Error =
    /** serialized lookup: the key is absent */
    | KeyNotFound(key: string)
    /** serialized lookup: the key is present but holds another type */
    | TypeMismatch(key: string)
    /** "<value> does not match to pattern: (.*)\$\((.*)\)(.*)" */
    | PatternMismatch(value: string)
    /** "<key> build settings not found" */
    | BuildSettingNotFound(key: string)
    /** "bundle id reference cycle found" */
    | ReferenceCycle
    /** "no PRODUCT_BUNDLE_IDENTIFIER build settings nor CFBundleIdentifier information property found" */
    | NoBundleIdentifier
    /** "failed to find target with name: <name>" */
    | TargetNotFound(name: string)
    /** "failed to get project's target attributes, error: <cause>" */
    | TargetAttributesUnavailable(cause: Error)
    /** "failed to get traget's (<id>) attributes, error: <cause>" */
    | TargetAttributeUnavailable(targetID: string, cause: Error)
    /** "failed to change code signing in target attributes, error: <cause>" */
    | TargetAttributesNotChanged(cause: Error)
    /** "failed to change code signing in build settings, error: <cause>" */
    | BuildSettingsNotChanged(cause: Error)
    /** reading or decoding a file failed; the message comes from the file system or the plist codec */
    | ReadFailure(message: string)

  datatype Result<+T> = Ok(value: T) | Err(error: Error) {
    predicate IsFailure() {
      Err?
    }

    function PropagateFailure<U>(): Result<U>
      requires Err?
    {
      Err(error)
    }

    function Extract(): T
      requires Ok?
    {
      value
    }
  }
}

=== FILE: expansion.dfy ===
/** `expand`: one pass that replaces a `$(KEY[:modifiers])` reference with the value of the
    build setting KEY. */
module Expansion {
  import opened Common
  import opened Serialized
  import opened Pattern

  /** `strings.Split(key, ":")[0]`: the text before the first `:`, or all of key. */
  function KeyName(key: string): (r: string)
    ensures r <= key
    ensures ':' !in r
    ensures |r| < |key| ==> key[|r|] == ':'
  {
    if key == [] || key[0] == ':' then [] else [key[0]] + KeyName(key[1..])
  }

  /** `expand(bundleID, buildSettings)`: one pass over the match FindMatch reports
      (FindMatch is FindFrom(value, 0) with its meaning attached).
      ExpandMeaning states the result in terms of the pattern's semantics. */
  function Expand(value: string, settings: Object): (r: Result<string>)
    ensures r.Err? ==> r.error.PatternMismatch? || r.error.BuildSettingNotFound? || r.error.TypeMismatch?
    ensures '$' !in value ==> r == Ok(value)
  {
    if '$' !in value then Ok(value)
    else match FindFrom(value, 0)
      case None => Err(PatternMismatch(value))
      case Some(m) => Substitute(value[m.start..m.open], value[m.open + 2..m.close], value[m.close + 1..m.end], settings)
  }

  /** `prefix + envValue + suffix`, where envValue is the setting the reference names. */
  function Substitute(prefix: string, reference: string, suffix: string, settings: Object): (r: Result<string>)
    ensures r.Err? ==> r.error.BuildSettingNotFound? || r.error.TypeMismatch?
    ensures r.Ok? <==> KeyName(reference) in settings && settings[KeyName(reference)].Str?
    ensures r.Ok? ==> r.value == prefix + settings[KeyName(reference)].s + suffix
    ensures KeyName(reference) !in settings <==> r == Err(BuildSettingNotFound(KeyName(reference)))
    ensures KeyName(reference) in settings && !settings[KeyName(reference)].Str? ==> r == Err(TypeMismatch(KeyName(reference)))
  {
    var key := KeyName(reference);
    match GetString(settings, key)
    case Ok(v) => Ok(prefix + v + suffix)
    case Err(KeyNotFound(_)) => Err(BuildSettingNotFound(key))
    case Err(err) => Err(err)
  }

  /** A value without `$` is returned as it is. A value with a `$` but no `$(...)` match (such
      as `${KEY}`) is a PatternMismatch. Otherwise the leftmost-first match is replaced: the
      prefix and suffix groups around the value of the key's name, where only the text before
      the first `:` is the name. An absent setting is reported as BuildSettingNotFound, any
      other lookup failure is passed on as it is. */
  lemma ExpandMeaning(value: string, settings: Object)
    ensures '$' !in value ==> Expand(value, settings) == Ok(value)
    ensures '$' in value && !Matches(value) ==> Expand(value, settings) == Err(PatternMismatch(value))
    ensures '$' in value ==>
      forall a, i, j, e :: IsLeftmostFirst(value, a, i, j, e) ==>
        var key := KeyName(value[i + 2..j]);
        match GetString(settings, key)
        case Ok(v) => Expand(value, settings) == Ok(value[a..i] + v + value[j + 1..e])
        case Err(KeyNotFound(_)) => Expand(value, settings) == Err(BuildSettingNotFound(key))
        case Err(err) => Expand(value, settings) == Err(err)
  {
    assert FindMatch(value) == FindFrom(value, 0);
    forall a, i, j, e | '$' in value && IsLeftmostFirst(value, a, i, j, e)
      ensures Expand(value, settings) == Substitute(value[a..i], value[i + 2..j], value[j + 1..e], settings)
    {
      var m := FindMatch(value).value;
      LeftmostFirstUnique(value, a, i, j, e, m.start, m.open, m.close, m.end);
    }
  }

  /** A reference with modifiers, `$(name:mod1:mod2)`, looks up name alone. */
  lemma {:induction false} KeyNameDropsModifiers(name: string, modifiers: string)
    requires ':' !in name
    ensures KeyName(name + ":" + modifiers) == name
    ensures KeyName(name) == name
  {
    if name != [] {
      assert (name + ":" + modifiers)[1..] == name[1..] + ":" + modifiers;
      KeyNameDropsModifiers(name[1..], modifiers);
    }
  }

  /** Any leftmost-first match is the one FindMatch reports. */
  lemma FoundIsLeftmostFirst(s: string)
    ensures forall a, i, j, e :: IsLeftmostFirst(s, a, i, j, e) ==> FindMatch(s) == Some(Span(a, i, j, e))
  {
    forall a, i, j, e | IsLeftmostFirst(s, a, i, j, e) ensures FindMatch(s) == Some(Span(a, i, j, e)) {
      var m := FindMatch(s).value;
      LeftmostFirstUnique(s, a, i, j, e, m.start, m.open, m.close, m.end);
    }
  }

  /** The reference `$(name)`. */
  function Reference(name: string): string {
    "$(" + name + ")"
  }

  /** For a one-line value whose last reference is `$(key)` with nothing but plain text after
      it, the prefix, the looked-up value of the key's name and the suffix are concatenated. */
  lemma ExpandPlainReference(p: string, key: string, q: string, settings: Object)
    requires '\n' !in p && '\n' !in key && '\n' !in q
    requires '$' !in key && ')' !in q
    ensures var value := p + Reference(key) + q;
      var name := KeyName(key);
      match GetString(settings, name)
      case Ok(v) => Expand(value, settings) == Ok(p + v + q)
      case Err(KeyNotFound(_)) => Expand(value, settings) == Err(BuildSettingNotFound(name))
      case Err(err) => Expand(value, settings) == Err(err)
  {
    PlainExpandIsSubstitute(p, key, q, settings);
  }

  lemma PlainExpandIsSubstitute(p: string, key: string, q: string, settings: Object)
    requires '\n' !in p && '\n' !in key && '\n' !in q
    requires '$' !in key && ')' !in q
    ensures Expand(p + Reference(key) + q, settings) == Substitute(p, key, q, settings)
  {
    var value := p + Reference(key) + q;
    PlainReferenceFound(p, key, q);
    PlainReferenceSlices(p, key, q);
    ExpandAtMatch(value, settings, Span(0, |p|, |p| + 2 + |key|, |value|), p, key, q);
  }

  /** With a `$` present, Expand substitutes at the match FindMatch reports. */
  lemma ExpandAtMatch(value: string, settings: Object, m: Span, prefix: string, reference: string, suffix: string)
    requires '$' in value && FindMatch(value) == Some(m)
    requires m.start <= m.open && m.open + 2 <= m.close < m.end <= |value|
    requires value[m.start..m.open] == prefix && value[m.open + 2..m.close] == reference
    requires value[m.close + 1..m.end] == suffix
    ensures Expand(value, settings) == Substitute(prefix, reference, suffix, settings)
  {
  }

  lemma PlainReferenceSlices(p: string, key: string, q: string)
    ensures var value := p + Reference(key) + q;
      && value[|p|] == '$'
      && '$' in value
      && value[|p| + 2..|p| + 2 + |key|] == key
      && value[0..|p|] == p
      && value[|p| + 3 + |key|..|value|] == q
  {
  }

  lemma PlainReferenceFound(p: string, key: string, q: string)
    requires '\n' !in p && '\n' !in key && '\n' !in q
    requires '$' !in key && ')' !in q
    ensures var value := p + Reference(key) + q;
      FindMatch(value) == Some(Span(0, |p|, |p| + 2 + |key|, |value|))
  {
    var value := p + Reference(key) + q;
    PlainReferenceMatch(p, key, q);
    assert Matches(value);
    var m := FindMatch(value).value;
    LeftmostFirstUnique(value, 0, |p|, |p| + 2 + |key|, |value|, m.start, m.open, m.close, m.end);
  }

  /** The match of such a value spans it whole, with the reference's `$(` right after p. */
  lemma PlainReferenceMatch(p: string, key: string, q: string)
    requires '\n' !in p && '\n' !in key && '\n' !in q
    requires '$' !in key && ')' !in q
    ensures var value := p + Reference(key) + q;
      IsLeftmostFirst(value, 0, |p|, |p| + 2 + |key|, |value|)
  {
    var value := p + Reference(key) + q;
    var i, j := |p|, |p| + 2 + |key|;
    assert value[i] == '$' && value[i + 1] == '(' && value[j] == ')';
    forall k | 0 <= k < |value| ensures value[k] != '\n' {
      if k < i { assert value[k] == p[k]; }
      else if i + 2 <= k < j { assert value[k] == key[k - i - 2]; }
      else if j < k { assert value[k] == q[k - j - 1]; }
    }
    forall k | j < k < |value| ensures value[k] != ')' {
      assert value[k] == q[k - j - 1];
    }
    forall k | i < k < j - 1 ensures !IsOpenAt(value, k) {
      if i + 2 <= k < j { assert value[k] == key[k - i - 2]; }
    }
    assert IsMatch(value, 0, i, j, |value|);
  }
}

=== FILE: paths.dfy ===
/** Path helpers behind `IsXcodeProj` and the project's `Name`: Go's `filepath.Ext`,
    `filepath.Base` (with '/' as the only separator and no volume names) and
    `strings.TrimSuffix`. */
module Paths {

  const Separator := '/'
  const XcodeProjExt := ".xcodeproj"

  predicate HasSuffix(s: string, suffix: string) {
    |suffix| <= |s| && s[|s| - |suffix|..] == suffix
  }

  /** `strings.TrimSuffix`: drop suffix once when s ends with it. */
  function TrimSuffix(s: string, suffix: string): (r: string)
    ensures HasSuffix(s, suffix) ==> r + suffix == s
    ensures !HasSuffix(s, suffix) ==> r == s
  {
    if HasSuffix(s, suffix) then s[..|s| - |suffix|] else s
  }

  /** The extension search of `filepath.Ext` over the indices below i: walk back until a
      separator, answering the suffix that starts at the first '.' met. */
  function ExtBelow(p: string, i: nat): (r: string)
    requires i <= |p|
    ensures r == "" || (|p| - i < |r| <= |p| && r == p[|p| - |r|..] && r[0] == '.')
    ensures r != "" ==> forall k :: |p| - |r| < k < i ==> p[k] != '.' && p[k] != Separator
    ensures r == "" ==> forall k :: 0 <= k < i && p[k] == '.' ==> Separator in p[k + 1..i]
    decreases i
  {
    if i == 0 || p[i - 1] == Separator then ""
    else if p[i - 1] == '.' then p[i - 1..]
    else
      var r := ExtBelow(p, i - 1);
      assert r == "" ==> forall k :: 0 <= k < i && p[k] == '.' ==> Separator in p[k + 1..i - 1];
      r
  }

  /** `filepath.Ext`: the suffix from the last '.' of the final path element, or "" when
      that element has no '.'. */
  function Ext(p: string): (r: string)
    ensures r == "" || (|r| <= |p| && r == p[|p| - |r|..] && r[0] == '.')
    ensures r != "" ==> forall k :: |p| - |r| < k < |p| ==> p[k] != '.' && p[k] != Separator
    ensures r == "" ==> forall k :: 0 <= k < |p| && p[k] == '.' ==> Separator in p[k + 1..]
  {
    ExtBelow(p, |p|)
  }

  /** The path with every trailing separator removed. */
  function StripTrailingSeparators(p: string): (r: string)
    ensures |r| <= |p| && r == p[..|r|]
    ensures r == "" || r[|r| - 1] != Separator
    ensures forall k :: |r| <= k < |p| ==> p[k] == Separator
    decreases |p|
  {
    if p != "" && p[|p| - 1] == Separator then StripTrailingSeparators(p[..|p| - 1]) else p
  }

  /** Where the final element of p starts: just after its last separator. */
  function ElementStart(p: string): (k: nat)
    ensures k <= |p|
    ensures k == 0 || p[k - 1] == Separator
    ensures forall j :: k <= j < |p| ==> p[j] != Separator
    decreases |p|
  {
    if p == "" || p[|p| - 1] == Separator then |p| else ElementStart(p[..|p| - 1])
  }

  /** e occurs in p at k, right after a separator or at the start, followed only by separators. */
  predicate ElementEndingAt(p: string, k: int, e: string) {
    && 0 <= k && k + |e| <= |p|
    && p[k..k + |e|] == e
    && (k == 0 || p[k - 1] == Separator)
    && forall m :: k + |e| <= m < |p| ==> p[m] == Separator
  }

  /** `filepath.Base`: "." for the empty path, "/" for a path of separators, otherwise the
      final element once trailing separators are gone. */
  function Base(p: string): (r: string)
    ensures p == "" ==> r == "."
    ensures p != "" ==> r != "" && (r == [Separator] || Separator !in r)
    ensures p != "" ==> (r == [Separator] <==> forall k :: 0 <= k < |p| ==> p[k] == Separator)
    ensures p != "" && r != [Separator] ==> exists k :: ElementEndingAt(p, k, r)
    ensures p != "" && p[|p| - 1] != Separator ==> r == p[ElementStart(p)..]
  {
    if p == "" then "."
    else
      var q := StripTrailingSeparators(p);
      if q == "" then [Separator]
      else
        var k := ElementStart(q);
        assert p[k..|q|] == q[k..];
        assert ElementEndingAt(p, k, q[k..]);
        q[k..]
  }

  /** `IsXcodeProj`: the path's extension is ".xcodeproj". */
  function IsXcodeProj(p: string): (r: bool)
    ensures r <==> HasSuffix(p, XcodeProjExt)
  {
    ExtIsXcodeProjIffSuffix(p);
    Ext(p) == XcodeProjExt
  }

  /** The project's `Name`: the base name of its path without the extension. */
  function Name(p: string): (r: string)
    ensures p == "" ==> r == "."
    ensures p != "" && p[|p| - 1] != Separator ==> r + Ext(p) == Base(p)
    ensures p != "" && p[|p| - 1] == Separator ==> r == Base(p)
  {
    ExtEndsBase(p);
    TrimSuffix(Base(p), Ext(p))
  }

  /** The extension is ".xcodeproj" exactly when the path ends in ".xcodeproj". */
  lemma ExtIsXcodeProjIffSuffix(p: string)
    ensures Ext(p) == XcodeProjExt <==> HasSuffix(p, XcodeProjExt)
  {
    var n := |XcodeProjExt|;
    if HasSuffix(p, XcodeProjExt) {
      var r := Ext(p);
      assert p[|p| - n] == '.';
      assert p[|p| - n + 1..] == XcodeProjExt[1..];
      assert r == p[|p| - n..];
    }
  }

  /** The extension of a path that does not end in a separator belongs to its base name. */
  lemma ExtEndsBase(p: string)
    ensures p != "" && p[|p| - 1] != Separator ==> HasSuffix(Base(p), Ext(p))
  {
    if p != "" && p[|p| - 1] != Separator {
      ExtInFinalElement(p);
      SuffixOfSuffix(p, ElementStart(p), Ext(p));
    }
  }

  /** The extension starts no earlier than the final element. */
  lemma ExtInFinalElement(p: string)
    ensures |Ext(p)| <= |p| - ElementStart(p)
  {
    var e, r := ElementStart(p), Ext(p);
    if r != "" {
      assert e == 0 || p[e - 1] == Separator;
    }
  }

  /** A suffix of p no longer than p[e..] is a suffix of p[e..]. */
  lemma SuffixOfSuffix(p: string, e: nat, r: string)
    requires e <= |p| && |r| <= |p| - e && HasSuffix(p, r)
    ensures HasSuffix(p[e..], r)
  {
    assert p[e..][|p| - e - |r|..] == p[|p| - |r|..];
  }

  /** A project at dir/stem.xcodeproj is named stem. */
  lemma ProjectNameIsStem(dir: string, stem: string)
    requires Separator !in stem
    ensures var p := dir + [Separator] + stem + XcodeProjExt;
      IsXcodeProj(p) && Name(p) == stem
  {
    var p := dir + [Separator] + stem + XcodeProjExt;
    assert p == (dir + [Separator]) + (stem + XcodeProjExt);
    NameOfElement(p, |dir| + 1, stem);
  }

  /** A path whose final element is stem.xcodeproj is an Xcode project named stem. */
  lemma NameOfElement(p: string, k: nat, stem: string)
    requires 0 < k <= |p| && p[k - 1] == Separator
    requires p[k..] == stem + XcodeProjExt && Separator !in stem
    ensures IsXcodeProj(p) && Name(p) == stem
  {
    assert HasSuffix(p, XcodeProjExt) by {
      assert p[|p| - |XcodeProjExt|..] == p[k..][|stem|..];
    }
    ExtIsXcodeProjIffSuffix(p);
    BaseIsFinalElement(p, k);
    assert Name(p) + XcodeProjExt == stem + XcodeProjExt;
    CancelSuffix(Name(p), stem, XcodeProjExt);
  }

  /** Without a trailing separator, the base name is everything after the last separator. */
  lemma BaseIsFinalElement(p: string, k: nat)
    requires 0 < k < |p| && p[k - 1] == Separator && Separator !in p[k..]
    ensures Base(p) == p[k..]
  {
    ElementStartAfterSeparator(p, k);
  }

  lemma CancelSuffix(a: string, b: string, c: string)
    requires a + c == b + c
    ensures a == b
  {
    assert a == (a + c)[..|a|];
  }

  /** The final element starts right after the last separator. */
  lemma ElementStartAfterSeparator(p: string, k: nat)
    requires 0 < k <= |p| && p[k - 1] == Separator && Separator !in p[k..]
    ensures ElementStart(p) == k
  {
    assert forall j :: k <= j < |p| ==> p[j] == p[k..][j - k];
  }

  /** The two paths the repository's own tests classify. */
  lemma SampleProjectPaths()
    ensures IsXcodeProj("./BitriseSample.xcodeproj")
    ensures !IsXcodeProj("./BitriseSample.xcworkspace")
  {
    assert "./BitriseSample.xcodeproj"[|"./BitriseSample.xcodeproj"| - |XcodeProjExt|..] == XcodeProjExt;
  }
}

=== FILE: pattern.dfy ===
/** Go `regexp` semantics of the build-setting reference pattern `(.*)\$\((.*)\)(.*)`
    as `FindStringSubmatch` applies it.

    A match is described by four positions in the subject `s`: it spans `s[start..end]`,
    the literal `$(` sits at `open` and the literal `)` at `close`, so the three groups are
    `s[start..open]`, `s[open+2..close]` and `s[close+1..end]`. Go's `.` matches every
    character except a line feed, so a match never crosses one. */
module Pattern {
  import opened Common

  datatype Span = Span(start: nat, open: nat, close: nat, end: nat)

  /** `$(` starts at index k of s */
  predicate IsOpenAt(s: string, k: int) {
    0 <= k && k + 1 < |s| && s[k] == '$' && s[k + 1] == '('
  }

  /** s[start..end] is matched by the pattern with `$(` at open and `)` at close */
  ghost predicate IsMatch(s: string, start: int, open: int, close: int, end: int) {
    && 0 <= start <= open
    && open + 2 <= close < end <= |s|
    && IsOpenAt(s, open)
    && s[close] == ')'
    && forall k :: start <= k < end ==> s[k] != '\n'
  }

  ghost predicate Matches(s: string) {
    exists start, open, close, end :: IsMatch(s, start, open, close, end)
  }

  /** The match `FindStringSubmatch` reports: the leftmost start, and from there the
      backtracking preference of the three greedy groups, longest first. */
  ghost predicate IsLeftmostFirst(s: string, start: int, open: int, close: int, end: int) {
    && IsMatch(s, start, open, close, end)
    && (forall a, i, j, e :: IsMatch(s, a, i, j, e) ==> start <= a)
    && (forall i, j, e :: IsMatch(s, start, i, j, e) ==> i <= open)
    && (forall j, e :: IsMatch(s, start, open, j, e) ==> j <= close)
    && (forall e :: IsMatch(s, start, open, close, e) ==> e <= end)
  }

  /** The end of the line that contains index a: the first line feed at or after a, or |s|. */
  function LineEnd(s: string, a: nat): (e: nat)
    requires a <= |s|
    ensures a <= e <= |s|
    ensures e == |s| || s[e] == '\n'
    ensures forall k :: a <= k < e ==> s[k] != '\n'
    decreases |s| - a
  {
    if a == |s| || s[a] == '\n' then a else LineEnd(s, a + 1)
  }

  /** The last `)` in s[lo..hi]. */
  function LastClose(s: string, lo: nat, hi: nat): (r: Option<nat>)
    requires lo <= hi <= |s|
    ensures r.Some? ==> lo <= r.value < hi && s[r.value] == ')'
    ensures r.Some? ==> forall k :: r.value < k < hi ==> s[k] != ')'
    ensures r.None? ==> forall k :: lo <= k < hi ==> s[k] != ')'
    decreases hi - lo
  {
    if hi == lo then None
    else if s[hi - 1] == ')' then Some(hi - 1)
    else LastClose(s, lo, hi - 1)
  }

  /** The last start of a `$(` in s[lo..hi]. */
  function LastOpen(s: string, lo: nat, hi: nat): (r: Option<nat>)
    requires lo <= hi < |s|
    ensures r.Some? ==> lo <= r.value < hi && IsOpenAt(s, r.value)
    ensures r.Some? ==> forall k :: r.value < k < hi ==> !IsOpenAt(s, k)
    ensures r.None? ==> forall k :: lo <= k < hi ==> !IsOpenAt(s, k)
    decreases hi - lo
  {
    if hi == lo then None
    else if IsOpenAt(s, hi - 1) then Some(hi - 1)
    else LastOpen(s, lo, hi - 1)
  }

  /** The preferred match starting at a, where [a, e) holds no line feed and e ends the line. */
  function LineMatch(s: string, a: nat, e: nat): (r: Option<Span>)
    requires a <= e <= |s|
    ensures r.Some? ==> a == r.value.start <= r.value.open && r.value.open + 2 <= r.value.close < r.value.end == e
  {
    match LastClose(s, a, e)
    case None => None
    case Some(j) =>
      if j < a + 2 then None
      else match LastOpen(s, a, j - 1)
        case None => None
        case Some(i) => Some(Span(a, i, j, e))
  }

  /** The first line at or after a that contains a match, and its preferred match. */
  function FindFrom(s: string, a: nat): (r: Option<Span>)
    requires a <= |s|
    ensures r.Some? ==> r.value.start <= r.value.open && r.value.open + 2 <= r.value.close < r.value.end <= |s|
    decreases |s| - a
  {
    var e := LineEnd(s, a);
    match LineMatch(s, a, e)
    case Some(m) => Some(m)
    case None => if e == |s| then None else FindFrom(s, e + 1)
  }

  /** `re.FindStringSubmatch(s)`: None when `len(match) != 4`. */
  function FindMatch(s: string): (r: Option<Span>)
    ensures r.None? <==> !Matches(s)
    ensures r.Some? ==> IsLeftmostFirst(s, r.value.start, r.value.open, r.value.close, r.value.end)
  {
    FindFromCorrect(s, 0);
    FindFrom(s, 0)
  }

  /** m is a match starting at or after a, preferred over every match that starts there. */
  ghost predicate PreferredFrom(s: string, a: nat, m: Span) {
    && a <= m.start
    && IsMatch(s, m.start, m.open, m.close, m.end)
    && (forall a', i', j', e' :: IsMatch(s, a', i', j', e') && a <= a' ==> m.start <= a')
    && (forall i', j', e' :: IsMatch(s, m.start, i', j', e') ==> i' <= m.open)
    && (forall j', e' :: IsMatch(s, m.start, m.open, j', e') ==> j' <= m.close)
    && (forall e' :: IsMatch(s, m.start, m.open, m.close, e') ==> e' <= m.end)
  }

  /** No match starts at or after a. */
  ghost predicate NoneFrom(s: string, a: nat) {
    forall a', i', j', e' :: IsMatch(s, a', i', j', e') ==> a' < a
  }

  /** Every match that starts in the line [a, e) is dominated by the line's preferred match. */
  lemma LineMatchDominates(s: string, a: nat, e: nat, a': int, i': int, j': int, e': int)
    requires a <= e <= |s|
    requires IsMatch(s, a', i', j', e') && a <= a' && e' <= e
    ensures LineMatch(s, a, e).Some?
    ensures LineMatch(s, a, e).value.open >= i'
    ensures LineMatch(s, a, e).value.close >= j'
  {
    var j := LastClose(s, a, e);
    assert s[j'] == ')' && a <= j' < e;
    assert j.Some? && j.value >= j';
    assert IsOpenAt(s, i') && a <= i' < j.value - 1;
  }

  /** A match that starts at or before the end of the line [a, e) ends inside it. */
  lemma MatchStaysInLine(s: string, a: nat, a': int, i': int, j': int, e': int)
    requires a <= |s|
    requires IsMatch(s, a', i', j', e') && a <= a' <= LineEnd(s, a)
    ensures e' <= LineEnd(s, a)
  {
  }

  /** Matches starting in the line of a stay in it and are dominated by its preferred match. */
  lemma LineMatches(s: string, a: nat)
    requires a <= |s|
    ensures var e := LineEnd(s, a);
      forall a', i', j', e' :: IsMatch(s, a', i', j', e') && a <= a' <= e ==>
        && e' <= e
        && LineMatch(s, a, e).Some?
        && LineMatch(s, a, e).value.open >= i'
        && LineMatch(s, a, e).value.close >= j'
  {
    var e := LineEnd(s, a);
    forall a', i', j', e' | IsMatch(s, a', i', j', e') && a <= a' <= e
      ensures e' <= e
      ensures LineMatch(s, a, e).Some?
      ensures LineMatch(s, a, e).value.open >= i'
      ensures LineMatch(s, a, e).value.close >= j'
    {
      MatchStaysInLine(s, a, a', i', j', e');
      LineMatchDominates(s, a, e, a', i', j', e');
    }
  }

  /** The preferred match of the line of a is preferred over every match from a on. */
  lemma LineMatchIsPreferred(s: string, a: nat)
    requires a <= |s| && LineMatch(s, a, LineEnd(s, a)).Some?
    ensures PreferredFrom(s, a, LineMatch(s, a, LineEnd(s, a)).value)
  {
    LineMatches(s, a);
  }

  /** A line without a match holds no start of one. */
  lemma NoLineMatch(s: string, a: nat)
    requires a <= |s| && LineMatch(s, a, LineEnd(s, a)).None?
    ensures forall a', i', j', e' :: IsMatch(s, a', i', j', e') && a <= a' ==> LineEnd(s, a) < a'
  {
    LineMatches(s, a);
  }

  lemma {:induction false} FindFromCorrect(s: string, a: nat)
    requires a <= |s|
    ensures FindFrom(s, a).None? ==> NoneFrom(s, a)
    ensures FindFrom(s, a).Some? ==> PreferredFrom(s, a, FindFrom(s, a).value)
    decreases |s| - a
  {
    var e := LineEnd(s, a);
    if LineMatch(s, a, e).Some? {
      LineMatchIsPreferred(s, a);
    } else {
      NoLineMatch(s, a);
      if e < |s| {
        FindFromCorrect(s, e + 1);
      }
    }
  }

  /** Only one match is the leftmost-first one. */
  lemma LeftmostFirstUnique(s: string, a: int, i: int, j: int, e: int, a': int, i': int, j': int, e': int)
    requires IsLeftmostFirst(s, a, i, j, e) && IsLeftmostFirst(s, a', i', j', e')
    ensures a == a' && i == i' && j == j' && e == e'
  {
  }
}

=== FILE: resolve.dfy ===
/** `resolve`: repeats `expand` until no `$` is left, failing when an intermediate result that
    still holds a `$` comes round again. The Go loop need not terminate (a setting such as
    `A = x$(A)` grows forever), so the model runs it for at most `fuel` passes. */
module Resolution {
  import opened Common
  import opened Serialized
  import opened Expansion

  datatype Outcome = Finished(result: Result<string>) | OutOfFuel

  /** One pass of the loop: `expand` against fixed build settings. The loop and its lemmas are
      stated for any such pass; Resolve instantiates it with Expand. */
  type Pass = string -> Result<string>

  function ExpandPass(settings: Object): (pass: Pass)
    ensures forall s :: pass(s) == Expand(s, settings)
  {
    s => Expand(s, settings)
  }

  /** The loop of `resolve` in state (resolved, seen), allowed `fuel` more passes. */
  function ResolveLoop(resolved: string, seen: set<string>, pass: Pass, fuel: nat): (o: Outcome)
    ensures o.Finished? && o.result.Ok? ==> '$' !in o.result.value
    decreases fuel
  {
    if fuel == 0 then OutOfFuel
    else match pass(resolved)
      case Err(e) => Finished(Err(e))
      case Ok(next) =>
        if '$' !in next then Finished(Ok(next))
        else if next in seen then Finished(Err(ReferenceCycle))
        else ResolveLoop(next, seen + {next}, pass, fuel - 1)
  }

  /** `resolve(bundleID, buildSettings)`; the input itself is never put in the seen set. */
  function Resolve(bundleID: string, settings: Object, fuel: nat): (o: Outcome)
    ensures '$' !in bundleID && fuel > 0 ==> o == Finished(Ok(bundleID))
    ensures o.Finished? && o.result.Ok? ==> '$' !in o.result.value
  {
    ResolveLoop(bundleID, {}, ExpandPass(settings), fuel)
  }

  /** One pass that leaves a new string with a `$` continues the loop. */
  lemma LoopContinues(resolved: string, seen: set<string>, pass: Pass, fuel: nat, next: string)
    requires fuel > 0 && pass(resolved) == Ok(next) && '$' in next && next !in seen
    ensures ResolveLoop(resolved, seen, pass, fuel) == ResolveLoop(next, seen + {next}, pass, fuel - 1)
  {
  }

  /** One pass that leaves no `$` ends the loop with that string. */
  lemma LoopFinishes(resolved: string, seen: set<string>, pass: Pass, fuel: nat, next: string)
    requires fuel > 0 && pass(resolved) == Ok(next) && '$' !in next
    ensures ResolveLoop(resolved, seen, pass, fuel) == Finished(Ok(next))
  {
  }

  /** Without fuel the loop does not run. */
  lemma LoopStops(resolved: string, seen: set<string>, pass: Pass)
    ensures ResolveLoop(resolved, seen, pass, 0) == OutOfFuel
  {
  }

  /** A failing pass ends the loop with its error. */
  lemma LoopFails(resolved: string, seen: set<string>, pass: Pass, fuel: nat, e: Error)
    requires fuel > 0 && pass(resolved) == Err(e)
    ensures ResolveLoop(resolved, seen, pass, fuel) == Finished(Err(e))
  {
  }

  /** n passes of `expand`, stopping at the first failure. */
  function Iterate(s: string, pass: Pass, n: nat): Result<string>
    decreases n
  {
    if n == 0 then Ok(s)
    else match pass(s)
      case Err(e) => Err(e)
      case Ok(t) => Iterate(t, pass, n - 1)
  }

  /** The iterates 1..n all succeed and all still hold a `$`. */
  ghost predicate DollarOrbit(s: string, pass: Pass, n: nat) {
    forall k :: 1 <= k <= n ==> Iterate(s, pass, k).Ok? && '$' in Iterate(s, pass, k).value
  }

  /** The n-th iterate ends the loop: it failed or it has no `$` left. */
  predicate Stops(r: Result<string>) {
    r.Err? || '$' !in r.value
  }

  lemma {:induction false} IterateAdd(s: string, pass: Pass, m: nat, n: nat)
    ensures Iterate(s, pass, m + n) ==
      match Iterate(s, pass, m)
      case Err(e) => Err(e)
      case Ok(t) => Iterate(t, pass, n)
    decreases m
  {
    if m > 0 {
      match pass(s)
      case Err(e) =>
      case Ok(t) => IterateAdd(t, pass, m - 1, n);
    }
  }

  /** One more pass is one more `expand`. */
  lemma IterateStep(s: string, pass: Pass, m: nat)
    ensures Iterate(s, pass, m + 1) ==
      match Iterate(s, pass, m)
      case Err(e) => Err(e)
      case Ok(t) => pass(t)
  {
    IterateAdd(s, pass, m, 1);
  }

  /** Once the iterates repeat while still holding a `$`, every later iterate holds one too:
      `expand` is deterministic, so the sequence cycles from there on. */
  lemma {:induction false} OrbitRepeats(s: string, pass: Pass, k: nat, j: nat, n: nat)
    requires 1 <= k < j && 1 <= n
    requires DollarOrbit(s, pass, j - 1)
    ensures Iterate(s, pass, j) == Iterate(s, pass, k) ==>
      Iterate(s, pass, n).Ok? && '$' in Iterate(s, pass, n).value
    decreases n
  {
    if Iterate(s, pass, j) == Iterate(s, pass, k) && n > j {
      var m := n - j;
      IterateAdd(s, pass, j, m);
      IterateAdd(s, pass, k, m);
      OrbitRepeats(s, pass, k, j, k + m);
    }
  }

  /** A finished resolve that is not a cycle report is the first iterate that stops the loop. */
  lemma {:induction false} ResolveIsFirstStop(resolved: string, seen: set<string>, pass: Pass, fuel: nat)
    returns (n: nat)
    requires ResolveLoop(resolved, seen, pass, fuel).Finished?
    requires ResolveLoop(resolved, seen, pass, fuel).result != Err(ReferenceCycle)
    ensures 1 <= n <= fuel
    ensures Iterate(resolved, pass, n) == ResolveLoop(resolved, seen, pass, fuel).result
    ensures Stops(Iterate(resolved, pass, n))
    ensures DollarOrbit(resolved, pass, n - 1)
    decreases fuel
  {
    match pass(resolved)
    case Err(e) => n := 1;
    case Ok(next) =>
      if '$' !in next {
        n := 1;
      } else {
        var n' := ResolveIsFirstStop(next, seen + {next}, pass, fuel - 1);
        n := n' + 1;
        forall k | 2 <= k <= n - 1
          ensures Iterate(resolved, pass, k) == Iterate(next, pass, k - 1)
        {
        }
      }
  }

  /** The loop state after m passes: `resolved` is the m-th iterate of s, the iterates 1..m are
      recorded in trace and hold a `$`, and everything seen is among them. */
  ghost predicate LoopState(s: string, pass: Pass, resolved: string, seen: set<string>, trace: seq<string>) {
    && Iterate(s, pass, |trace|) == Ok(resolved)
    && (forall k :: 0 <= k < |trace| ==> Iterate(s, pass, k + 1) == Ok(trace[k]) && '$' in trace[k])
    && (forall x :: x in seen ==> x in trace)
  }

  /** If the loop stops before its fuel runs out, it returns the first iterate that stops it. */
  lemma {:induction false} LoopReachesFirstStop(s: string, pass: Pass, resolved: string, seen: set<string>,
                                                 trace: seq<string>, fuel: nat, n: nat)
    requires LoopState(s, pass, resolved, seen, trace)
    requires |trace| < n <= |trace| + fuel
    requires DollarOrbit(s, pass, n - 1) && Stops(Iterate(s, pass, n))
    ensures ResolveLoop(resolved, seen, pass, fuel) == Finished(Iterate(s, pass, n))
    decreases fuel
  {
    var m := |trace|;
    IterateStep(s, pass, m);
    if m + 1 < n {
      var next := Iterate(s, pass, m + 1).value;
      forall k | 1 <= k <= m ensures Iterate(s, pass, k) != Iterate(s, pass, m + 1) {
        OrbitRepeats(s, pass, k, m + 1, n);
      }
      assert next !in seen;
      LoopReachesFirstStop(s, pass, next, seen + {next}, trace + [next], fuel - 1, n);
    }
  }

  /** Completeness: with enough fuel, resolve returns the first iterate that fails or is free
      of references. Together with ResolveIsFirstStop this characterizes every finished result
      other than a cycle report. */
  lemma ResolveReachesFirstStop(s: string, pass: Pass, fuel: nat, n: nat)
    requires 1 <= n <= fuel
    requires DollarOrbit(s, pass, n - 1) && Stops(Iterate(s, pass, n))
    ensures ResolveLoop(s, {}, pass, fuel) == Finished(Iterate(s, pass, n))
  {
    LoopReachesFirstStop(s, pass, s, {}, [], fuel, n);
  }

  lemma TraceOrbit(s: string, pass: Pass, resolved: string, seen: set<string>, trace: seq<string>)
    requires LoopState(s, pass, resolved, seen, trace)
    ensures DollarOrbit(s, pass, |trace|)
  {
    forall k | 1 <= k <= |trace| ensures Iterate(s, pass, k) == Ok(trace[k - 1]) {
      assert Iterate(s, pass, (k - 1) + 1) == Ok(trace[k - 1]);
    }
  }

  /** A pass that never reports a cycle itself. */
  ghost predicate NoCycleReports(pass: Pass) {
    forall x :: pass(x) != Err(ReferenceCycle)
  }

  /** A cycle report finds two equal iterates, both holding a `$`. */
  lemma {:induction false} LoopCycleRepeats(s: string, pass: Pass, resolved: string, seen: set<string>,
                                             trace: seq<string>, fuel: nat)
    returns (k: nat, j: nat)
    requires NoCycleReports(pass)
    requires LoopState(s, pass, resolved, seen, trace)
    requires ResolveLoop(resolved, seen, pass, fuel) == Finished(Err(ReferenceCycle))
    ensures 1 <= k < j <= |trace| + fuel
    ensures DollarOrbit(s, pass, j - 1)
    ensures Iterate(s, pass, j) == Iterate(s, pass, k)
    decreases fuel
  {
    var m := |trace|;
    IterateStep(s, pass, m);
    TraceOrbit(s, pass, resolved, seen, trace);
    var next := pass(resolved).value;
    if next in seen {
      var idx :| 0 <= idx < |trace| && trace[idx] == next;
      k, j := idx + 1, m + 1;
    } else {
      k, j := LoopCycleRepeats(s, pass, next, seen + {next}, trace + [next], fuel - 1);
    }
  }

  /** Within the first `fuel` passes two iterates coincide while every iterate so far still
      holds a `$`. */
  ghost predicate RepeatsWithin(s: string, pass: Pass, fuel: nat) {
    exists k: nat, j: nat :: 1 <= k < j <= fuel && DollarOrbit(s, pass, j - 1) && Iterate(s, pass, j) == Iterate(s, pass, k)
  }

  /** A repetition the loop reaches is reported as a cycle. */
  lemma {:induction false} RepeatIsReported(s: string, pass: Pass, resolved: string, seen: set<string>,
                                            trace: seq<string>, fuel: nat, k: nat, j: nat)
    requires LoopState(s, pass, resolved, seen, trace)
    requires forall i :: 0 <= i < |trace| ==> trace[i] in seen
    requires 1 <= k < j && |trace| < j <= |trace| + fuel
    requires DollarOrbit(s, pass, j - 1) && Iterate(s, pass, j) == Iterate(s, pass, k)
    ensures ResolveLoop(resolved, seen, pass, fuel) == Finished(Err(ReferenceCycle))
    decreases fuel
  {
    var m := |trace|;
    IterateStep(s, pass, m);
    OrbitRepeats(s, pass, k, j, m + 1);
    var next := Iterate(s, pass, m + 1).value;
    if m + 1 == j {
      assert Iterate(s, pass, (k - 1) + 1) == Ok(trace[k - 1]);
      assert next in seen;
    } else if next !in seen {
      RepeatIsReported(s, pass, next, seen + {next}, trace + [next], fuel - 1, k, j);
    }
  }

  /** Cycle detection is exact: resolve reports a reference cycle if and only if, within its
      passes, an intermediate result that still holds a `$` equals an earlier one. */
  lemma CycleIffRepeat(s: string, settings: Object, fuel: nat)
    ensures Resolve(s, settings, fuel) == Finished(Err(ReferenceCycle)) <==> RepeatsWithin(s, ExpandPass(settings), fuel)
  {
    var pass := ExpandPass(settings);
    assert LoopState(s, pass, s, {}, []);
    if Resolve(s, settings, fuel) == Finished(Err(ReferenceCycle)) {
      var k, j := LoopCycleRepeats(s, pass, s, {}, [], fuel);
    }
    if RepeatsWithin(s, pass, fuel) {
      var k: nat, j: nat :| 1 <= k < j <= fuel && DollarOrbit(s, pass, j - 1) && Iterate(s, pass, j) == Iterate(s, pass, k);
      RepeatIsReported(s, pass, s, {}, [], fuel, k, j);
    }
  }

  /** Soundness of cycle detection: when resolve reports a cycle, expanding without a bound
      would never end, since every iterate succeeds and still holds a `$`. */
  lemma CycleMeansEndlessExpansion(s: string, settings: Object, fuel: nat)
    requires Resolve(s, settings, fuel) == Finished(Err(ReferenceCycle))
    ensures forall n :: 1 <= n ==>
      Iterate(s, ExpandPass(settings), n).Ok? && '$' in Iterate(s, ExpandPass(settings), n).value
  {
    var pass := ExpandPass(settings);
    var k, j := LoopCycleRepeats(s, pass, s, {}, [], fuel);
    forall n | 1 <= n ensures Iterate(s, pass, n).Ok? && '$' in Iterate(s, pass, n).value {
      OrbitRepeats(s, pass, k, j, n);
    }
  }

  /** More fuel never changes a finished outcome. */
  lemma {:induction false} ResolveFuelMonotone(resolved: string, seen: set<string>, pass: Pass, fuel: nat, more: nat)
    requires fuel <= more
    requires ResolveLoop(resolved, seen, pass, fuel).Finished?
    ensures ResolveLoop(resolved, seen, pass, more) == ResolveLoop(resolved, seen, pass, fuel)
    decreases fuel
  {
    match pass(resolved)
    case Err(_) =>
    case Ok(next) =>
      if '$' in next && next !in seen {
        ResolveFuelMonotone(next, seen + {next}, pass, fuel - 1, more - 1);
      }
  }

  /** Resolve fails only in the ways expand fails, or with a reference cycle. */
  lemma ResolveFailures(s: string, settings: Object, fuel: nat)
    ensures var o := Resolve(s, settings, fuel);
      o.Finished? && o.result.Err? ==>
        o.result.error.ReferenceCycle? || o.result.error.PatternMismatch?
        || o.result.error.BuildSettingNotFound? || o.result.error.TypeMismatch?
  {
    var o := Resolve(s, settings, fuel);
    if o.Finished? && o.result != Err(ReferenceCycle) {
      var n := ResolveIsFirstStop(s, {}, ExpandPass(settings), fuel);
      ExpandFailures(s, settings, n);
    }
  }

  lemma {:induction false} ExpandFailures(s: string, settings: Object, n: nat)
    ensures Iterate(s, ExpandPass(settings), n).Err? ==>
      var e := Iterate(s, ExpandPass(settings), n).error;
      e.PatternMismatch? || e.BuildSettingNotFound? || e.TypeMismatch?
    decreases n
  {
    if n > 0 {
      match Expand(s, settings)
      case Err(_) =>
      case Ok(t) => ExpandFailures(t, settings, n - 1);
    }
  }
}

=== FILE: resolve_examples.dfy ===
/** Worked cases of `expand` and `resolve`, stated for any setting names. */
module ResolveExamples {
  import opened Common
  import opened Serialized
  import opened Pattern
  import opened Expansion
  import opened Resolution

  /** A name that can appear as a whole reference `$(name)` and is looked up as it is. */
  predicate PlainName(name: string) {
    '\n' !in name && '$' !in name && ':' !in name
  }

  /** `$(name)` expands to the setting's value. */
  lemma ExpandReference(prefix: string, name: string, settings: Object)
    requires PlainName(name) && '\n' !in prefix
    ensures match GetString(settings, name)
      case Ok(v) => Expand(prefix + Reference(name), settings) == Ok(prefix + v)
      case Err(KeyNotFound(_)) => Expand(prefix + Reference(name), settings) == Err(BuildSettingNotFound(name))
      case Err(err) => Expand(prefix + Reference(name), settings) == Err(err)
  {
    ExpandPlainReference(prefix, name, "", settings);
    KeyNameDropsModifiers(name, "");
    assert prefix + Reference(name) + "" == prefix + Reference(name);
    match GetString(settings, name)
    case Ok(v) => assert prefix + v + "" == prefix + v;
    case Err(_) =>
  }

  /** A value that is a single reference `$(name)` expands to the setting's value. */
  lemma ExpandWholeRef(name: string, settings: Object)
    requires PlainName(name)
    ensures match GetString(settings, name)
      case Ok(v) => Expand(Reference(name), settings) == Ok(v)
      case Err(KeyNotFound(_)) => Expand(Reference(name), settings) == Err(BuildSettingNotFound(name))
      case Err(err) => Expand(Reference(name), settings) == Err(err)
  {
    ExpandReference("", name, settings);
    assert "" + Reference(name) == Reference(name);
    match GetString(settings, name)
    case Ok(v) => assert "" + v == v;
    case Err(_) =>
  }

  /** `$(A)` with A = `$(A)`: the first pass yields the input again, which is not yet in the
      seen set, so the cycle is reported on the second pass. */
  lemma SelfReferenceIsCycle(a: string, fuel: nat)
    requires PlainName(a)
    ensures Resolve(Reference(a), map[a := Str(Reference(a))], fuel) ==
            if fuel < 2 then OutOfFuel else Finished(Err(ReferenceCycle))
  {
    var settings := map[a := Str(Reference(a))];
    var pass := ExpandPass(settings);
    ExpandWholeRef(a, settings);
    assert Reference(a)[0] == '$';
    assert pass(Reference(a)) == Ok(Reference(a));
    if fuel >= 2 {
      LoopContinues(Reference(a), {}, pass, fuel, Reference(a));
      assert ResolveLoop(Reference(a), {Reference(a)}, pass, fuel - 1) == Finished(Err(ReferenceCycle));
    } else if fuel == 1 {
      LoopContinues(Reference(a), {}, pass, fuel, Reference(a));
    }
  }

  /** `$(A)` with A = `$(B)` and B = `$(A)` is reported as a cycle after three passes. */
  lemma MutualReferenceIsCycle(a: string, b: string, fuel: nat)
    requires PlainName(a) && PlainName(b) && a != b
    requires fuel >= 3
    ensures Resolve(Reference(a), map[a := Str(Reference(b)), b := Str(Reference(a))], fuel) == Finished(Err(ReferenceCycle))
  {
    var settings := map[a := Str(Reference(b)), b := Str(Reference(a))];
    var pass := ExpandPass(settings);
    ExpandWholeRef(a, settings);
    ExpandWholeRef(b, settings);
    assert Reference(a)[0] == '$' && Reference(b)[0] == '$';
    assert Reference(a) != Reference(b) by {
      assert Reference(a)[2..|Reference(a)| - 1] == a;
      assert Reference(b)[2..|Reference(b)| - 1] == b;
    }
    assert pass(Reference(a)) == Ok(Reference(b));
    assert pass(Reference(b)) == Ok(Reference(a));
    LoopContinues(Reference(a), {}, pass, fuel, Reference(b));
    LoopContinues(Reference(b), {Reference(b)}, pass, fuel - 1, Reference(a));
    assert ResolveLoop(Reference(a), {Reference(b), Reference(a)}, pass, fuel - 2) == Finished(Err(ReferenceCycle));
  }

  /** A reference inside a setting's value is resolved on a later pass:
      with TARGET_NAME = `App` and BASE = `com.example.$(TARGET_NAME)`, `$(BASE)` resolves to
      `com.example.App`. */
  lemma NestedReferenceResolves(base: string, target: string, prefix: string, app: string, fuel: nat)
    requires PlainName(base) && PlainName(target) && base != target
    requires '\n' !in prefix && '$' !in prefix && '$' !in app
    requires fuel >= 2
    ensures Resolve(Reference(base), map[target := Str(app), base := Str(prefix + Reference(target))], fuel)
            == Finished(Ok(prefix + app))
  {
    var settings := map[target := Str(app), base := Str(prefix + Reference(target))];
    var pass := ExpandPass(settings);
    ExpandWholeRef(base, settings);
    ExpandReference(prefix, target, settings);
    assert (prefix + Reference(target))[|prefix|] == '$';
    assert pass(Reference(base)) == Ok(prefix + Reference(target));
    assert pass(prefix + Reference(target)) == Ok(prefix + app);
    LoopContinues(Reference(base), {}, pass, fuel, prefix + Reference(target));
    LoopFinishes(prefix + Reference(target), {prefix + Reference(target)}, pass, fuel - 1, prefix + app);
  }

  /** A modifier list after `:` is accepted and ignored: `$(PRODUCT_NAME:rfc1034identifier)`
      is replaced by PRODUCT_NAME's value as it is. */
  lemma ModifierIsIgnored(name: string, modifiers: string, v: string, fuel: nat)
    requires PlainName(name) && '\n' !in modifiers && ')' !in modifiers && '$' !in modifiers
    requires '$' !in v
    requires fuel >= 1
    ensures Resolve(Reference(name + ":" + modifiers), map[name := Str(v)], fuel) == Finished(Ok(v))
  {
    var s := Reference(name + ":" + modifiers);
    ExpandModified(name, modifiers, v);
    LoopFinishes(s, {}, ExpandPass(map[name := Str(v)]), fuel, v);
  }

  lemma ExpandModified(name: string, modifiers: string, v: string)
    requires PlainName(name) && '\n' !in modifiers && ')' !in modifiers && '$' !in modifiers
    ensures Expand(Reference(name + ":" + modifiers), map[name := Str(v)]) == Ok(v)
  {
    var settings := map[name := Str(v)];
    var key := name + ":" + modifiers;
    KeyNameDropsModifiers(name, modifiers);
    ExpandPlainReference("", key, "", settings);
    assert GetString(settings, name) == Ok(v);
    Unpad(Reference(key));
    Unpad(v);
  }

  lemma Unpad(x: string)
    ensures "" + x + "" == x
  {
  }

  /** A setting that is absent is reported by name. */
  lemma MissingSettingIsReported(name: string, settings: Object, fuel: nat)
    requires PlainName(name) && name !in settings
    requires fuel >= 1
    ensures Resolve(Reference(name), settings, fuel) == Finished(Err(BuildSettingNotFound(name)))
  {
    ExpandWholeRef(name, settings);
    assert Reference(name)[0] == '$';
    LoopFails(Reference(name), {}, ExpandPass(settings), fuel, BuildSettingNotFound(name));
  }

  /** A brace reference `${KEY}` does not match the pattern. */
  lemma BraceReferenceIsMalformed(name: string, settings: Object, fuel: nat)
    requires '$' !in name
    requires fuel >= 1
    ensures var s := "${" + name + "}";
      Resolve(s, settings, fuel) == Finished(Err(PatternMismatch(s)))
  {
    var s := "${" + name + "}";
    forall k | 0 <= k < |s| ensures !IsOpenAt(s, k) {
      if 2 <= k < |s| - 1 { assert s[k] == name[k - 2]; }
    }
    assert s[0] == '$';
    assert !Matches(s);
    ExpandMeaning(s, settings);
    LoopFails(s, {}, ExpandPass(settings), fuel, PatternMismatch(s));
  }

  function Xs(n: nat): (r: string)
    ensures |r| == n && '$' !in r && '\n' !in r
  {
    seq(n, _ => 'x')
  }

  /** A = `x$(A)` makes every pass longer, so no string repeats and resolve never finishes:
      the Go loop runs forever on this input. */
  lemma SelfGrowingNeverFinishes(a: string, fuel: nat)
    requires PlainName(a)
    ensures Resolve(Reference(a), map[a := Str("x" + Reference(a))], fuel) == OutOfFuel
  {
    var pass := ExpandPass(map[a := Str("x" + Reference(a))]);
    forall m: nat ensures pass(Xs(m) + Reference(a)) == Ok(Xs(m + 1) + Reference(a)) {
      GrowingPass(a, m);
    }
    assert Xs(0) + Reference(a) == Reference(a);
    GrowingLoop(pass, a, 0, {}, fuel);
  }

  /** The loop under a pass that always adds one more `x` in front of the reference. */
  lemma {:induction false} GrowingLoop(pass: Pass, a: string, n: nat, seen: set<string>, fuel: nat)
    requires forall m: nat :: pass(Xs(m) + Reference(a)) == Ok(Xs(m + 1) + Reference(a))
    requires forall y :: y in seen ==> |y| <= n + |Reference(a)|
    ensures ResolveLoop(Xs(n) + Reference(a), seen, pass, fuel) == OutOfFuel
    decreases fuel
  {
    if fuel > 0 {
      var next := Xs(n + 1) + Reference(a);
      assert next[0 + n + 1] == '$';
      assert next !in seen;
      LoopContinues(Xs(n) + Reference(a), seen, pass, fuel, next);
      GrowingLoop(pass, a, n + 1, seen + {next}, fuel - 1);
    } else {
      LoopStops(Xs(n) + Reference(a), seen, pass);
    }
  }

  lemma GrowingPass(a: string, n: nat)
    requires PlainName(a)
    ensures var next := Xs(n + 1) + Reference(a);
      && ExpandPass(map[a := Str("x" + Reference(a))])(Xs(n) + Reference(a)) == Ok(next)
      && '$' in next
      && |next| == n + 1 + |Reference(a)|
  {
    var settings := map[a := Str("x" + Reference(a))];
    var next := Xs(n + 1) + Reference(a);
    ExpandReference(Xs(n), a, settings);
    assert Xs(n) + ("x" + Reference(a)) == next by {
      assert Xs(n) + ("x" + Reference(a)) == (Xs(n) + "x") + Reference(a);
      assert Xs(n) + "x" == Xs(n + 1);
    }
    assert next[n + 1] == '$';
  }
}

=== FILE: root_scan.dfy ===
/** Root object discovery in `open`: the scan of the `objects` table for the entry whose `isa`
    is `PBXProject`. Go ranges over a map in an unspecified order, so the order is a parameter:
    any sequence listing each key of the table once. */
module RootScan {
  import opened Common
  import opened Serialized

  const RootIsa := "PBXProject"

  /** The entry under id is a dictionary with a string `isa`: the scan reads it without error. */
  predicate Readable(objects: Object, id: string) {
    id in objects && objects[id].Dict? && "isa" in objects[id].fields && objects[id].fields["isa"].Str?
  }

  /** The entry under id is the root object. */
  predicate IsRoot(objects: Object, id: string) {
    Readable(objects, id) && objects[id].fields["isa"].s == RootIsa
  }

  /** `order` lists every key of `objects` exactly once: a possible order of `for id := range objects`. */
  ghost predicate IsEnumeration(order: seq<string>, objects: Object) {
    && (forall k :: 0 <= k < |order| ==> order[k] in objects)
    && (forall id :: id in objects ==> id in order)
    && (forall k, m :: 0 <= k < m < |order| ==> order[k] != order[m])
  }

  /** The error reading the unreadable entry under id reports: the table lookup's error when
      the entry is absent or not a dictionary, otherwise the `isa` lookup's error. */
  function ReadError(objects: Object, id: string): Error
    requires !Readable(objects, id)
  {
    if id !in objects then KeyNotFound(id)
    else if !objects[id].Dict? then TypeMismatch(id)
    else if "isa" !in objects[id].fields then KeyNotFound("isa")
    else TypeMismatch("isa")
  }

  /** The scan from position `from` of `order`. The result is the root's id, "" when the scan
      runs out, or the error of the first entry that cannot be read. */
  function ScanFrom(objects: Object, order: seq<string>, from: nat): (r: Result<string>)
    requires from <= |order|
    ensures r.Ok? ==>
      || (exists k :: from <= k < |order| && order[k] == r.value && IsRoot(objects, order[k])
                      && forall m :: from <= m < k ==> Readable(objects, order[m]) && !IsRoot(objects, order[m]))
      || (r.value == "" && forall m :: from <= m < |order| ==> Readable(objects, order[m]) && !IsRoot(objects, order[m]))
    ensures r.Err? ==>
      exists k :: from <= k < |order| && !Readable(objects, order[k]) && r.error == ReadError(objects, order[k])
                  && forall m :: from <= m < k ==> Readable(objects, order[m]) && !IsRoot(objects, order[m])
    decreases |order| - from
  {
    if from == |order| then Ok("")
    else
      var id := order[from];
      var entry :- GetObject(objects, id);
      var isa :- GetString(entry, "isa");
      if isa == RootIsa then Ok(id) else ScanFrom(objects, order, from + 1)
  }

  /** The root-finding part of `open`: read the `objects` dictionary of the decoded project,
      then scan it in the given order. */
  function FindProjectID(raw: Object, order: seq<string>): (r: Result<string>)
    ensures "objects" in raw && !raw["objects"].Dict? ==> r == Err(TypeMismatch("objects"))
    ensures "objects" !in raw ==> r == Err(KeyNotFound("objects"))
  {
    var objects :- GetObject(raw, "objects");
    ScanFrom(objects, order, 0)
  }

  /** When every entry can be read and exactly one is the root, the scan finds it, in
      whatever order the map is ranged over. */
  lemma UniqueRootFound(objects: Object, order: seq<string>, id: string)
    requires IsEnumeration(order, objects)
    requires forall k :: k in objects ==> Readable(objects, k)
    requires IsRoot(objects, id) && forall k :: IsRoot(objects, k) ==> k == id
    ensures ScanFrom(objects, order, 0) == Ok(id)
  {
    var at :| 0 <= at < |order| && order[at] == id;
  }

  /** When every entry can be read and none is the root, the scan returns the empty id
      without an error: the missing root goes unreported. */
  lemma NoRootGivesEmptyID(objects: Object, order: seq<string>)
    requires IsEnumeration(order, objects)
    requires forall k :: k in objects ==> Readable(objects, k) && !IsRoot(objects, k)
    ensures ScanFrom(objects, order, 0) == Ok("")
  {
  }

  /** A non-empty id returned without error names a root entry. */
  lemma FoundIDIsRoot(raw: Object, order: seq<string>)
    ensures var r := FindProjectID(raw, order);
      r.Ok? && r.value != "" ==> "objects" in raw && raw["objects"].Dict? && IsRoot(raw["objects"].fields, r.value)
  {
  }

  /** The scan fails only on an entry it meets before any root: an entry that is not a
      dictionary or has no string `isa`. A table whose entries are all readable never fails. */
  lemma ReadableTableNeverFails(objects: Object, order: seq<string>)
    requires IsEnumeration(order, objects)
    requires forall k :: k in objects ==> Readable(objects, k)
    ensures ScanFrom(objects, order, 0).Ok?
  {
  }
}

=== FILE: serialized.dfy ===
/** The dynamically shaped tree the plist decoder produces (`serialized.Object` in Go):
    a dictionary from string keys to strings, nested dictionaries or anything else. */
module Serialized {
  import opened Common

  datatype Value = Str(s: string) | Dict(fields: map<string, Value>) | Other

  type Object = map<string, Value>

  /** `Object.String(key)`: the string stored under `key`. */
  function GetString(o: Object, key: string): (r: Result<string>)
    ensures r.Ok? <==> key in o && o[key].Str?
    ensures r.Ok? ==> o[key] == Str(r.value)
    ensures key !in o <==> r == Err(KeyNotFound(key))
    ensures key in o && !o[key].Str? <==> r == Err(TypeMismatch(key))
  {
    if key !in o then Err(KeyNotFound(key))
    else match o[key]
      case Str(s) => Ok(s)
      case _ => Err(TypeMismatch(key))
  }

  /** `Object.Object(key)`: the dictionary stored under `key`. */
  function GetObject(o: Object, key: string): (r: Result<Object>)
    ensures r.Ok? <==> key in o && o[key].Dict?
    ensures r.Ok? ==> o[key] == Dict(r.value)
    ensures key !in o <==> r == Err(KeyNotFound(key))
    ensures key in o && !o[key].Dict? <==> r == Err(TypeMismatch(key))
  {
    if key !in o then Err(KeyNotFound(key))
    else match o[key]
      case Dict(fields) => Ok(fields)
      case _ => Err(TypeMismatch(key))
  }
}
